=== FILE: README.md ===
# Social media service: validation and persistence core

This project models the core of a small account/message REST service. It covers
the business rules of `SocialMediaService` and the table operations of
`SocialMediaDAO`. The relational store is modelled as an immutable in-memory
value, `Dao.Store`, with four parts:

- an account table, `account_id → (username, password)`;
- a message table, `message_id → (posted_by, message_text, time_posted_epoch)`;
- one auto-increment counter for each table.

Every operation is a pure function. It takes a store and returns the new store
together with what the Java method returns. A Java `null` is `None`, and a
`List` is a `seq`. Strings are `seq<char>`, and `String.length()` is `|s|`.

Modules:

- `Model` (model.dfy): the `Account` and `Message` entities, and the row types of the two tables.
- `Dao` (dao.dfy): one function per data-access method, plus the store invariant `Valid`.
  `Valid` says ids come from the counters: they start at 1, and every id in use is below its table's counter.
- `Service` (service.dfy): the validation layer.
  - `WellFormed` is the data-model invariant: usernames are non-empty and unique, passwords have at least 4 characters, every message's author exists, and message text has 1..255 characters.
  - Every service operation is proved to preserve `WellFormed`.
- `Session` (session.dfy): the service as a state machine over a sequence of requests.
  It proves three things across requests: message ids are never reissued, registered accounts keep logging in, and a register/post/fetch/update/delete walk-through on empty tables gives the expected ids and values.
- `AsWritten` (as_written.dfy): three source behaviours that differ from what the code evidently intends.
  Each one is modelled as written, with the input that shows the difference (see "## Findings").

The model follows the code, with three exceptions. In each, the main model
follows the evident intent, and the as-written behaviour is kept in `AsWritten`
with an input that shows the difference (see "## Findings"):

- `Service.PostMessage` rejects empty text by length. The code compares the text with `""` by reference (`SocialMediaService.java:69`). The comment on lines 61-62 asks for text that is "not blank", and the same words on the update path (line 115) are checked as `length() == 0` (line 119).
- `Dao.PostMessage` stores the time it replies with, which is the request's time. The code stores a clock value read once when the data-access class is loaded (`SocialMediaDAO.java:16`, `:178`), while its reply echoes the request's time (`:187`).
- `Dao.RetrieveAccountById`, and `Service.RetrieveAccountById` through it, return the stored username and password. The code fills them from result columns 1 and 2, which are the id and the username (`SocialMediaDAO.java:102`).

Registration follows the code in the same reading of "not blank": the comment on `SocialMediaService.java:26` uses those words, and line 36 checks length > 0, as the update path does at lines 115 and 119. A username of spaces is therefore accepted, by the code and by the model.

## Model

| member | source | states |
|---|---|---|
| Service.AddAccount | src/main/java/Service/SocialMediaService.java:31-42 | Registration is rejected iff the password is shorter than 4, the username is empty, or the username is already stored. A rejection leaves the store unchanged. Otherwise exactly one row is added, under the counter's fresh id, the account counter rises by one, and the returned account carries that id and the given credentials. The message table and the message counter never change. The store invariant is preserved. |
| Service.UserLogin | src/main/java/Service/SocialMediaService.java:50-57 | Login returns None without consulting the store when the username is empty or the password is shorter than 4. Otherwise it succeeds iff some row holds exactly these credentials, and it returns that stored row. |
| Service.PostMessage | src/main/java/Service/SocialMediaService.java:59-74 | Posting is rejected iff posted_by is not an account, or the text has length 0 or over 255. Exactly 255 characters are therefore accepted. On success the reply has a fresh id, namely the counter, which rises by one. Exactly that row is added: fetching its id returns the reply, earlier rows are untouched, the account table is unchanged, and the invariant is kept. |
| Service.UpdateMessageById | src/main/java/Service/SocialMediaService.java:111-124 | Update is rejected iff the id is absent, or the new text has length 0 or over 255. A rejection leaves the store unchanged. On success only that message's text changes: its id, posted_by and time stay the same, and every other message reads back as before. The account table and both counters never change. |
| Service.DeleteMessageById | src/main/java/Service/SocialMediaService.java:97-102 | Deletion never fails. Afterwards the id is absent, every other message reads back as before, and the account table and both counters are unchanged. Deleting an absent id leaves the store as it was. |
| Service.RetrieveMessageById | src/main/java/Service/SocialMediaService.java:104-109 | The result is present iff the id is stored. It agrees with the full listing. |
| Service.RetrieveMessagesByUser | src/main/java/Service/SocialMediaService.java:126-131 | In a well-formed store, the result is exactly the stored messages with that posted_by, in ascending id order. It is empty when the account has no messages. |
| Service.RetrieveAllMessages | src/main/java/Service/SocialMediaService.java:76-81 | Every stored message appears exactly once, in ascending id order. |
| Service.RetrieveAccountById | src/main/java/Service/SocialMediaService.java:83-88 | The result is present iff the account id is stored, and it is that stored row. |
| Service.RetrieveAllUsernames | src/main/java/Service/SocialMediaService.java:90-95 | The list has one entry per account: each username occurs exactly as many times as there are accounts holding it. A name is in it iff some account holds that username. |
| Service.DuplicateRegistrationRejected | src/main/java/Service/SocialMediaService.java:33-39 | After a successful registration, registering the same username again, with any password, is rejected. |
| Service.LoginAfterRegister | src/main/java/DAO/SocialMediaDAO.java:37-48 | In any store whose ids come from the counters, even one with repeated usernames, a successful registration can log in at once with the same credentials, and gets back the same account and id. |
| Service.LoginFindsAccount | src/main/java/DAO/SocialMediaDAO.java:142-163 | In a well-formed store, the credentials of any stored row log in to exactly that row. |
| Service.WrongPasswordRejected | src/main/java/DAO/SocialMediaDAO.java:145-162 | In a well-formed store, a registered username with any other password is refused. |
| Service.DeleteIdempotent | src/main/java/Service/SocialMediaService.java:100-102 | Deleting an id twice gives the same store as deleting it once. |
| Dao.UserLogin | src/main/java/DAO/SocialMediaDAO.java:142-163 | The result is present iff some row matches both username and password exactly. The result is such a row: the matching row with the lowest id. |
| Dao.FirstWithCredentials | src/main/java/DAO/SocialMediaDAO.java:145-155 | The scan for matching credentials returns the first matching id in the range, or reports that no row in the range matches. |
| Dao.AddAccount | src/main/java/DAO/SocialMediaDAO.java:33-57 | Inserts exactly one row under the counter's id and bumps the counter. Other rows and the message table are unchanged. The re-fetch always finds an account with the given credentials, and it carries the new id iff no earlier row held the same credentials. |
| Dao.RetrieveAllUsernames | src/main/java/DAO/SocialMediaDAO.java:117-136 | One entry per stored account: each username occurs exactly as many times as there are rows holding it, even when rows repeat a username. A username is listed iff some account holds it. |
| Dao.UsernamesFrom | src/main/java/DAO/SocialMediaDAO.java:121-127 | Reading the username column over an id range yields one entry per row in that range. |
| Dao.UsernameCount | src/main/java/DAO/SocialMediaDAO.java:125-127 | The loop adds one username per row, so a name occurs in the scan exactly as often as rows in range hold it. |
| Dao.RetrieveAccountById | src/main/java/DAO/SocialMediaDAO.java:90-112 | The result is present iff the id is stored, and it is that row's id, username and password. This is the intended column mapping; see Findings. |
| Dao.PostMessage | src/main/java/DAO/SocialMediaDAO.java:169-197 | Adds one row under a fresh id, namely the counter, which is then bumped. The reply carries that id and the given posted_by, text and time. The reply is exactly the stored row, and no existing row or account changes. |
| Dao.PostThenRetrieve | src/main/java/DAO/SocialMediaDAO.java:173-187 | Fetching the id a post replied with returns exactly that reply. |
| Dao.RetrieveAllMessages | src/main/java/DAO/SocialMediaDAO.java:203-222 | The list has as many entries as the table has rows. It is in ascending id order, and a message is in it iff it is a stored row. |
| Dao.RetrieveMessageById | src/main/java/DAO/SocialMediaDAO.java:224-246 | The result is present iff a row has that id, and it is that row. |
| Dao.DeleteMessageById | src/main/java/DAO/SocialMediaDAO.java:248-265 | The row with that id is gone, and every other row is unchanged. With no match nothing changes. |
| Dao.UpdateMessageById | src/main/java/DAO/SocialMediaDAO.java:267-292 | Present iff the id exists. The re-fetched message has the new text and the old id, posted_by and time, and it is what the table now holds. No other row, account or counter changes. |
| Dao.RetrieveMessagesByUser | src/main/java/DAO/SocialMediaDAO.java:295-318 | The result is in ascending id order, and a message is in it iff it is stored, has that posted_by, and that account exists (the inner join). |
| Dao.ByAuthor | src/main/java/DAO/SocialMediaDAO.java:300-310 | The filter on posted_by keeps exactly the messages by that author and preserves ascending order. |
| Dao.KeysFrom | src/main/java/DAO/SocialMediaDAO.java:208-215 | A table scan visits exactly the keys in range, in strictly ascending order. |
| Dao.KeysFromCount | src/main/java/DAO/SocialMediaDAO.java:208-215 | A scan visits each key in range exactly once. |
| Dao.ScanCoversTable | src/main/java/DAO/SocialMediaDAO.java:208-215 | Under the counter invariant, scanning ids from 1 up to the counter visits every row of the table. |
| Session.Apply | src/main/java/Service/SocialMediaService.java:31-131 | A single request keeps the invariant and never alters an existing account. Only a successful post moves the message counter, by exactly one, and that post's id is the old counter. |
| Session.Run | src/main/java/Service/SocialMediaService.java:31-131 | Any sequence of requests keeps the invariant, yields one response per request, never lowers the message counter, and never alters an existing account. |
| Session.PostedIdsFresh | src/main/java/DAO/SocialMediaDAO.java:173-186 | Over any run, the ids handed out by successful posts strictly increase. Each lies between the starting and final counters, so no id is reused, even after its message was deleted. |
| Session.AccountKeepsLogin | src/main/java/DAO/SocialMediaDAO.java:142-163 | A stored account still logs in to the same id after any further requests. |
| Session.EndToEnd | src/main/java/Service/SocialMediaService.java:31-124 | Empty tables are well-formed. On them, a register/post/fetch/update/delete walk-through gives the expected ids and values. Registering bob/pass1 gives account 1. Posting "hi" gives message 1, and fetching it gives the same message. Updating it to "hi there" keeps its id, author and time. After deletion, fetching it gives nothing. |
| AsWritten.PostMessageBlankCheck | src/main/java/Service/SocialMediaService.java:67-74 | Posting as written rejects iff the author is missing, the text is over 255, or the text is the very literal `""` object (reference comparison). |
| AsWritten.BlankTextAccepted | src/main/java/Service/SocialMediaService.java:69 | Take an existing author and an empty text that is not the literal object. The as-written check accepts and stores it, which breaks the invariant; the intended check rejects it. |
| AsWritten.PostMessageStoredTime | src/main/java/DAO/SocialMediaDAO.java:173-187 | The insert as written stores the class-load clock value but replies with the request's time. Fetching the new id returns the stored row, which equals the reply iff the two times coincide. |
| AsWritten.PostedTimeNotStored | src/main/java/DAO/SocialMediaDAO.java:178-187 | For a request time of 1669947792 and a load-time clock of 1700000000, fetching the posted message does not return what the post replied with. |
| AsWritten.RetrieveAccountById | src/main/java/DAO/SocialMediaDAO.java:94-103 | The lookup as written is present iff the account exists, but its password slot holds the username (result column 2). |
| AsWritten.AccountColumnsShifted | src/main/java/DAO/SocialMediaDAO.java:102 | Take a stored bob/pass1 with id 1. The as-written lookup reports username "1" and password "bob", while the intended lookup reports bob/pass1. |

## Left out

- JDBC plumbing is not modelled: connections, statements, result sets, logging and `printStackTrace`. Every `SQLException` branch is out of scope, so storage never fails in the model. In the source those branches return null, nothing (delete, `SocialMediaDAO.java:261`), or the rows read before the failure: the three listings (`SocialMediaDAO.java:125-135`, `:212-221`, `:307-316`) return their partial list from the catch path. A username scan that fails part-way would therefore let the uniqueness check at `SocialMediaService.java:33-36` accept a username that is already taken; the model does not cover this.
- The HTTP controller (Javalin routing, JSON parsing, status codes) is not modelled. Neither is how it builds replies from service results, such as returning the deleted message on DELETE.
- The DAO's `retrieveAll` account listing is a test feature that no service method calls, and it is not modelled.
- Concurrency is not modelled, including the race between the username check and the insert. Each request is one atomic step.
- The singleton `instance()` and the constructors of the DAO and the service are not modelled.
- Time is a parameter. The wall clock that the data-access class reads when it is loaded appears only as the `epochSeconds` argument of `AsWritten.PostMessageStoredTime`.
- The database schema is not part of this model. No unique constraint on usernames, foreign key on posted_by, or column width is assumed. Only the service-level checks keep the store well-formed.
- Ids, counters and times are unbounded integers. The 32-bit wrap-around of Java `int` ids, and of the generated keys behind them, is not modelled.
- `String.length()` counts UTF-16 code units; the model counts characters. The two differ only for characters outside the Basic Multilingual Plane.
- Null fields in a request body (which would throw `NullPointerException`) are not modelled.
- Row order of listings: the queries have no ORDER BY. The model fixes ascending id order, which is also insertion order, because ids come from an increasing counter.
- Dao.UserLogin: when several rows hold the same credentials, the query's choice of row is unspecified. The model returns the lowest id. This can happen only through direct calls to the DAO, because the service keeps usernames unique.
- Dao.PostMessage stores the request's time, which is also the time it replies with. The source stores the clock value read when the class is loaded; see Findings and `AsWritten.PostMessageStoredTime`.
- Service.RetrieveAccountById and Dao.RetrieveAccountById return the stored row. The source fills username and password from the wrong columns; see Findings and `AsWritten.RetrieveAccountById`.

## Findings

| source | as written | input that shows it | evidently intended | confidence | as-written member | corrected member |
|---|---|---|---|---|---|---|
| src/main/java/Service/SocialMediaService.java:69 | The blank check is `getMessage_text() == ""`, a reference comparison. Any empty string that is not the interned literal passes. | An existing author and an empty text produced at run time, for example by `new String("")` | Reject when the text length is 0: lines 61-62 ask for text that is "not blank", which the update path (lines 115 and 119) checks as `length() == 0` | not executed; low to medium. The JSON parser may hand over the interned literal for an empty field, and then the bug stays hidden on the HTTP path. | AsWritten.PostMessageBlankCheck, AsWritten.BlankTextAccepted | Service.PostMessage |
| src/main/java/DAO/SocialMediaDAO.java:178 | The row stores `epochSeconds`, read once at class load. The reply echoes the request's `time_posted_epoch`. | A post with time 1669947792 while the class-load clock is 1700000000; the message fetched afterwards differs from the reply | The stored row and the reply carry the same time, namely the request's | not executed; high that the two differ. The request's time is the one meant: the endpoint comment (`SocialMediaController.java:99-103`) says the message in the request body should be persisted. | AsWritten.PostMessageStoredTime, AsWritten.PostedTimeNotStored | Dao.PostMessage, Dao.PostThenRetrieve |
| src/main/java/DAO/SocialMediaDAO.java:102 | The account is built from result columns 1 and 2, which are account_id and username | Account 1 "bob"/"pass1" is looked up as username "1", password "bob" | Build the account from the username and password columns | not executed; high | AsWritten.RetrieveAccountById, AsWritten.AccountColumnsShifted | Dao.RetrieveAccountById |

=== FILE: as_written.dfy ===
/**
 * Three operations exactly as the source writes them, where that differs
 * from what it evidently intends, each with the input that shows the
 * difference.  The rest of the model uses the intended versions:
 * `Service.PostMessage`, `Dao.PostMessage` (with `Dao.PostThenRetrieve`) and
 * `Dao.RetrieveAccountById`.
 */
module AsWritten {
  import opened Wrappers
  import opened Model
  import Dao
  import Service

  /**
   * Posting as written: the blank check compares the text with the literal
   * "" by object identity, not by contents.  `isEmptyLiteral` says whether
   * the text is that very literal object; any other empty string passes.
   */
  function PostMessageBlankCheck(st: Dao.Store, postedBy: int, text: string, isEmptyLiteral: bool, time: int)
    : (r: Dao.Step<Option<Message>>)
    requires Dao.Valid(st)
    requires isEmptyLiteral ==> text == ""
    ensures r.out.None? <==> postedBy !in st.accounts || |text| > 255 || isEmptyLiteral
    ensures r.out.Some? ==> r.out.value.messageText == text && Dao.Stored(r.store, r.out.value)
  {
    if Dao.RetrieveAccountById(st, postedBy).None? || |text| > Service.MaxMessageLength || isEmptyLiteral then
      Dao.Step(st, None)
    else
      var r := Dao.PostMessage(st, postedBy, text, time);
      Dao.Step(r.store, Some(r.out))
  }

  /**
   * An empty text that is not the literal object is stored, which breaks
   * the well-formedness of the store; the intended check refuses it.
   */
  lemma BlankTextAccepted(st: Dao.Store, postedBy: int, time: int)
    requires Service.WellFormed(st)
    requires postedBy in st.accounts
    ensures PostMessageBlankCheck(st, postedBy, "", false, time).out
            == Some(Message(st.nextMessageId, postedBy, "", time))
    ensures !Service.WellFormed(PostMessageBlankCheck(st, postedBy, "", false, time).store)
    ensures Service.PostMessage(st, postedBy, "", time).out.None?
  {
    var r := PostMessageBlankCheck(st, postedBy, "", false, time);
    assert st.nextMessageId in r.store.messages && r.store.messages[st.nextMessageId].text == "";
  }

  /**
   * The data-access insert as written: the row gets the clock value read
   * when the class was loaded, while the reply echoes the request's time.
   */
  function PostMessageStoredTime(st: Dao.Store, postedBy: int, text: string, time: int, epochSeconds: int)
    : (r: Dao.Step<Message>)
    requires Dao.Valid(st)
    ensures r.out.messageId == st.nextMessageId && r.out.messageId !in st.messages
    ensures r.out.timePostedEpoch == time
    ensures Dao.RetrieveMessageById(r.store, r.out.messageId)
            == Some(r.out.(timePostedEpoch := epochSeconds))
    ensures Dao.Stored(r.store, r.out) <==> time == epochSeconds
  {
    var id := st.nextMessageId;
    var st' := st.(messages := st.messages[id := Post(postedBy, text, epochSeconds)],
                   nextMessageId := id + 1);
    Dao.Step(st', Message(id, postedBy, text, time))
  }

  /** Posting then fetching the message back returns a different time than the post replied with. */
  lemma PostedTimeNotStored()
    ensures var r := PostMessageStoredTime(Dao.Empty(), 1, "hi", 1669947792, 1700000000);
            Dao.RetrieveMessageById(r.store, r.out.messageId) != Some(r.out)
  {
  }

  function Digit(d: nat): char
    requires d < 10
  {
    "0123456789"[d]
  }

  function NatString(n: nat): (s: string)
    decreases n
  {
    if n < 10 then [Digit(n)] else NatString(n / 10) + [Digit(n % 10)]
  }

  /** The text an integer column reads back as, through a string getter. */
  function IntString(n: int): string
  {
    if n < 0 then "-" + NatString(-n) else NatString(n)
  }

  /**
   * Account lookup as written: the account is built from result columns 1
   * and 2, which are account_id and username, so the username slot holds
   * the id's digits and the password slot holds the username.
   */
  function RetrieveAccountById(st: Dao.Store, id: int): (r: Option<Account>)
    ensures r.Some? <==> Dao.RetrieveAccountById(st, id).Some?
    ensures r.Some? ==> r.value.accountId == id && r.value.password == st.accounts[id].username
  {
    if id in st.accounts then Some(Account(id, IntString(id), st.accounts[id].username)) else None
  }

  /** For a stored "bob" with password "pass1" under id 1, the lookup reports username "1", password "bob". */
  lemma AccountColumnsShifted()
    ensures var st := Dao.AddAccount(Dao.Empty(), "bob", "pass1").store;
            && RetrieveAccountById(st, 1) == Some(Account(1, "1", "bob"))
            && Dao.RetrieveAccountById(st, 1) == Some(Account(1, "bob", "pass1"))
  {
    var st := Dao.AddAccount(Dao.Empty(), "bob", "pass1").store;
    assert st.accounts[1] == Credentials("bob", "pass1");
    assert IntString(1) == "1";
  }
}

=== FILE: dao.dfy ===
/**
 * The data-access layer as operations on an in-memory store: an account
 * table, a message table and one auto-increment counter per table.  Each
 * operation is the observable table effect of one parameterized statement
 * (or the statement followed by its re-fetch), returned together with the
 * store it leaves behind.
 */
module Dao {
  import opened Wrappers
  import opened Model

  datatype Store = Store(
    accounts: map<int, Credentials>,
    messages: map<int, Post>,
    nextAccountId: int,
    nextMessageId: int)

  /** The store after an operation, and what the operation returned. */
  datatype Step<T> = Step(store: Store, out: T)

  /**
   * Auto-increment ids start at 1 and every id in a table was issued by
   * that table's counter, so the counter is strictly above every id in use.
   */
  predicate Valid(st: Store)
  {
    && 1 <= st.nextAccountId
    && 1 <= st.nextMessageId
    && (forall id :: id in st.accounts ==> 1 <= id < st.nextAccountId)
    && (forall id :: id in st.messages ==> 1 <= id < st.nextMessageId)
  }

  /** Freshly reset tables. */
  function Empty(): (st: Store)
    ensures Valid(st)
    ensures |st.accounts| == 0 && |st.messages| == 0
  {
    Store(map[], map[], 1, 1)
  }

  /** `m` is exactly the row the message table holds under `m`'s id. */
  predicate Stored(st: Store, m: Message)
  {
    m.messageId in st.messages && MessageOf(m.messageId, st.messages[m.messageId]) == m
  }

  /** Some account row holds exactly these credentials. */
  predicate HasCredentials(st: Store, c: Credentials)
  {
    exists id :: id in st.accounts && st.accounts[id] == c
  }

  /** Some account row holds this username. */
  predicate UsernameTaken(st: Store, username: string)
  {
    exists id :: id in st.accounts && st.accounts[id].username == username
  }

  predicate Ascending(ms: seq<Message>)
  {
    forall i, j :: 0 <= i < j < |ms| ==> ms[i].messageId < ms[j].messageId
  }

  function KeysIn<R>(t: map<int, R>, lo: int, hi: int): set<int>
  {
    set k | k in t && lo <= k < hi
  }

  /** The keys of `t` in [lo, hi), in ascending order: a table scan in primary-key order. */
  function KeysFrom<R>(t: map<int, R>, lo: int, hi: int): (ks: seq<int>)
    decreases hi - lo
    ensures forall i, j :: 0 <= i < j < |ks| ==> ks[i] < ks[j]
    ensures forall k :: k in ks <==> k in t && lo <= k < hi
  {
    if hi <= lo then []
    else
      var rest := KeysFrom(t, lo + 1, hi);
      if lo in t then
        assert forall j :: 0 <= j < |rest| ==> lo < rest[j] by {
          forall j | 0 <= j < |rest|
            ensures lo < rest[j]
          {
            assert rest[j] in rest;
          }
        }
        [lo] + rest
      else rest
  }

  /** A scan visits each key in range exactly once. */
  lemma {:induction false} KeysFromCount<R>(t: map<int, R>, lo: int, hi: int)
    decreases hi - lo
    ensures |KeysFrom(t, lo, hi)| == |KeysIn(t, lo, hi)|
  {
    if hi <= lo {
      assert KeysIn(t, lo, hi) == {};
    } else {
      KeysFromCount(t, lo + 1, hi);
      if lo in t {
        assert KeysIn(t, lo, hi) == {lo} + KeysIn(t, lo + 1, hi);
      } else {
        assert KeysIn(t, lo, hi) == KeysIn(t, lo + 1, hi);
      }
    }
  }

  /** Under `Valid`, scanning [1, next) visits every row of the table exactly once. */
  lemma ScanCoversTable<R>(t: map<int, R>, next: int)
    requires forall id :: id in t ==> 1 <= id < next
    ensures |KeysFrom(t, 1, next)| == |t|
  {
    KeysFromCount(t, 1, next);
    assert KeysIn(t, 1, next) == t.Keys;
  }

  /** The lowest id in [lo, hi) whose row holds exactly `c`. */
  function FirstWithCredentials(t: map<int, Credentials>, c: Credentials, lo: int, hi: int): (r: Option<int>)
    decreases hi - lo
    ensures r.Some? ==> lo <= r.value < hi && r.value in t && t[r.value] == c
    ensures r.Some? ==> forall k :: lo <= k < r.value && k in t ==> t[k] != c
    ensures r.None? ==> forall k :: lo <= k < hi && k in t ==> t[k] != c
  {
    if hi <= lo then None
    else if lo in t && t[lo] == c then Some(lo)
    else FirstWithCredentials(t, c, lo + 1, hi)
  }

  /**
   * Exact-match lookup on username and password.  When several rows match
   * (possible only if the table holds duplicate credentials) the one with
   * the lowest id is returned.
   */
  function UserLogin(st: Store, username: string, password: string): (r: Option<Account>)
    requires Valid(st)
    ensures r.Some? <==> HasCredentials(st, Credentials(username, password))
    ensures r.Some? ==> r.value.username == username && r.value.password == password
    ensures r.Some? ==> r.value.accountId in st.accounts
                        && st.accounts[r.value.accountId] == Credentials(username, password)
    ensures r.Some? ==> forall id :: id in st.accounts && id < r.value.accountId
                                     ==> st.accounts[id] != Credentials(username, password)
  {
    var c := Credentials(username, password);
    match FirstWithCredentials(st.accounts, c, 1, st.nextAccountId)
    case Some(id) => Some(AccountOf(id, c))
    case None => None
  }

  /** Insert a row with a generated id, then re-fetch the account by its credentials. */
  function AddAccount(st: Store, username: string, password: string): (r: Step<Option<Account>>)
    requires Valid(st)
    ensures Valid(r.store)
    ensures st.nextAccountId !in st.accounts
    ensures r.store.accounts.Keys == st.accounts.Keys + {st.nextAccountId}
    ensures r.store.accounts[st.nextAccountId] == Credentials(username, password)
    ensures forall id :: id in st.accounts ==> r.store.accounts[id] == st.accounts[id]
    ensures r.store.nextAccountId == st.nextAccountId + 1
    ensures r.store.messages == st.messages && r.store.nextMessageId == st.nextMessageId
    ensures r.out.Some? && r.out.value.username == username && r.out.value.password == password
    ensures r.out.Some? && (r.out.value.accountId == st.nextAccountId
                            <==> !HasCredentials(st, Credentials(username, password)))
  {
    var id := st.nextAccountId;
    var st' := st.(accounts := st.accounts[id := Credentials(username, password)],
                   nextAccountId := id + 1);
    Step(st', UserLogin(st', username, password))
  }

  /** The ids of the rows in [lo, hi) whose username is `u`. */
  function RowsNamed(t: map<int, Credentials>, u: string, lo: int, hi: int): set<int>
  {
    set id | id in t && lo <= id < hi && t[id].username == u
  }

  /** The ids of the account rows whose username is `u`. */
  function AccountsNamed(st: Store, u: string): set<int>
  {
    set id | id in st.accounts && st.accounts[id].username == u
  }

  /** The username column of the rows in [lo, hi), in id order. */
  function UsernamesFrom(t: map<int, Credentials>, lo: int, hi: int): (r: seq<string>)
    decreases hi - lo
    ensures |r| == |KeysIn(t, lo, hi)|
  {
    if hi <= lo then
      assert KeysIn(t, lo, hi) == {};
      []
    else
      var rest := UsernamesFrom(t, lo + 1, hi);
      if lo in t then
        assert KeysIn(t, lo, hi) == {lo} + KeysIn(t, lo + 1, hi);
        [t[lo].username] + rest
      else
        assert KeysIn(t, lo, hi) == KeysIn(t, lo + 1, hi);
        rest
  }

  /** The scan lists a username once for every row in range that holds it. */
  lemma {:induction false} UsernameCount(t: map<int, Credentials>, u: string, lo: int, hi: int)
    decreases hi - lo
    ensures multiset(UsernamesFrom(t, lo, hi))[u] == |RowsNamed(t, u, lo, hi)|
  {
    if hi <= lo {
      assert RowsNamed(t, u, lo, hi) == {};
    } else {
      UsernameCount(t, u, lo + 1, hi);
      var rest := UsernamesFrom(t, lo + 1, hi);
      if lo in t {
        assert UsernamesFrom(t, lo, hi) == [t[lo].username] + rest;
        if t[lo].username == u {
          assert RowsNamed(t, u, lo, hi) == {lo} + RowsNamed(t, u, lo + 1, hi);
        } else {
          assert RowsNamed(t, u, lo, hi) == RowsNamed(t, u, lo + 1, hi);
        }
      } else {
        assert RowsNamed(t, u, lo, hi) == RowsNamed(t, u, lo + 1, hi);
      }
    }
  }

  /** The username column of the account table, one entry per row, in id order. */
  function RetrieveAllUsernames(st: Store): (r: seq<string>)
    requires Valid(st)
    ensures |r| == |st.accounts|
    ensures forall u :: multiset(r)[u] == |AccountsNamed(st, u)|
    ensures forall u :: u in r <==> UsernameTaken(st, u)
  {
    var r := UsernamesFrom(st.accounts, 1, st.nextAccountId);
    assert KeysIn(st.accounts, 1, st.nextAccountId) == st.accounts.Keys;
    assert forall u :: multiset(r)[u] == |AccountsNamed(st, u)| by {
      forall u
        ensures multiset(r)[u] == |AccountsNamed(st, u)|
      {
        UsernameCount(st.accounts, u, 1, st.nextAccountId);
        assert RowsNamed(st.accounts, u, 1, st.nextAccountId) == AccountsNamed(st, u);
      }
    }
    assert forall u :: u in r <==> UsernameTaken(st, u) by {
      forall u
        ensures u in r <==> UsernameTaken(st, u)
      {
        if u in r {
          assert multiset(r)[u] > 0;
          var id :| id in AccountsNamed(st, u);
        }
        if UsernameTaken(st, u) {
          var id :| id in st.accounts && st.accounts[id].username == u;
          assert id in AccountsNamed(st, u);
        }
      }
    }
    r
  }

  /** Lookup of an account by its id. */
  function RetrieveAccountById(st: Store, id: int): (r: Option<Account>)
    ensures r.Some? <==> id in st.accounts
    ensures r.Some? ==> r.value.accountId == id
                        && st.accounts[id] == Credentials(r.value.username, r.value.password)
  {
    if id in st.accounts then Some(AccountOf(id, st.accounts[id])) else None
  }

  /** Insert a message row with a generated id; the reply carries that id. */
  function PostMessage(st: Store, postedBy: int, text: string, time: int): (r: Step<Message>)
    requires Valid(st)
    ensures Valid(r.store)
    ensures r.out.messageId !in st.messages && r.out.messageId >= 1
    ensures r.out.messageId == st.nextMessageId && r.store.nextMessageId == st.nextMessageId + 1
    ensures r.out.postedBy == postedBy && r.out.messageText == text && r.out.timePostedEpoch == time
    ensures r.store.messages.Keys == st.messages.Keys + {r.out.messageId}
    ensures Stored(r.store, r.out)
    ensures forall id :: id in st.messages ==> r.store.messages[id] == st.messages[id]
    ensures r.store.accounts == st.accounts && r.store.nextAccountId == st.nextAccountId
  {
    var id := st.nextMessageId;
    var st' := st.(messages := st.messages[id := Post(postedBy, text, time)],
                   nextMessageId := id + 1);
    Step(st', Message(id, postedBy, text, time))
  }

  /** The intended insert round-trips: fetching the new id returns exactly the reply. */
  lemma PostThenRetrieve(st: Store, postedBy: int, text: string, time: int)
    requires Valid(st)
    ensures var r := PostMessage(st, postedBy, text, time);
            RetrieveMessageById(r.store, r.out.messageId) == Some(r.out)
  {
  }

  /** Every stored message, once each, in ascending id order. */
  function RetrieveAllMessages(st: Store): (r: seq<Message>)
    requires Valid(st)
    ensures |r| == |st.messages|
    ensures Ascending(r)
    ensures forall m :: m in r <==> Stored(st, m)
  {
    var ks := KeysFrom(st.messages, 1, st.nextMessageId);
    ScanCoversTable(st.messages, st.nextMessageId);
    var r := seq(|ks|, i requires 0 <= i < |ks| => MessageOf(ks[i], st.messages[ks[i]]));
    assert forall m :: Stored(st, m) ==> m in r by {
      forall m | Stored(st, m)
        ensures m in r
      {
        assert m.messageId in ks;
        var i :| 0 <= i < |ks| && ks[i] == m.messageId;
        assert r[i] == m;
      }
    }
    r
  }

  function RetrieveMessageById(st: Store, id: int): (r: Option<Message>)
    ensures r.Some? <==> id in st.messages
    ensures r.Some? ==> r.value.messageId == id && Stored(st, r.value)
  {
    if id in st.messages then Some(MessageOf(id, st.messages[id])) else None
  }

  /** Remove the row with this id; with no such row nothing changes. */
  function DeleteMessageById(st: Store, id: int): (r: Store)
    ensures id !in r.messages
    ensures forall k :: k != id ==> (k in r.messages <==> k in st.messages)
    ensures forall k :: k in r.messages ==> r.messages[k] == st.messages[k]
    ensures r.accounts == st.accounts
    ensures r.nextAccountId == st.nextAccountId && r.nextMessageId == st.nextMessageId
    ensures id !in st.messages ==> r == st
  {
    st.(messages := st.messages - {id})
  }

  /** Rewrite the text of the row with this id, then re-fetch it. */
  function UpdateMessageById(st: Store, text: string, id: int): (r: Step<Option<Message>>)
    ensures r.out.Some? <==> id in st.messages
    ensures r.out.Some? ==> r.out.value == Message(id, st.messages[id].postedBy, text, st.messages[id].time)
    ensures r.out.Some? ==> Stored(r.store, r.out.value)
    ensures r.store.messages.Keys == st.messages.Keys
    ensures forall k :: k in st.messages && k != id ==> r.store.messages[k] == st.messages[k]
    ensures id !in st.messages ==> r.store == st
    ensures r.store.accounts == st.accounts
    ensures r.store.nextAccountId == st.nextAccountId && r.store.nextMessageId == st.nextMessageId
  {
    var st' := if id in st.messages
               then st.(messages := st.messages[id := st.messages[id].(text := text)])
               else st;
    Step(st', RetrieveMessageById(st', id))
  }

  /** The messages of `ms` by `author`, in their original order. */
  function ByAuthor(ms: seq<Message>, author: int): (r: seq<Message>)
    ensures forall m :: m in r <==> m in ms && m.postedBy == author
    ensures Ascending(ms) ==> Ascending(r)
  {
    if ms == [] then []
    else
      var rest := ByAuthor(ms[1..], author);
      assert Ascending(ms) ==> forall m :: m in rest ==> ms[0].messageId < m.messageId by {
        if Ascending(ms) {
          forall m | m in rest
            ensures ms[0].messageId < m.messageId
          {
            var j :| 1 <= j < |ms| && ms[j] == m;
          }
        }
      }
      if ms[0].postedBy == author then [ms[0]] + rest else rest
  }

  /**
   * The messages whose posted_by is this account, joined against the
   * account table: an author with no account row yields no messages.
   */
  function RetrieveMessagesByUser(st: Store, accountId: int): (r: seq<Message>)
    requires Valid(st)
    ensures Ascending(r)
    ensures forall m :: m in r <==> Stored(st, m) && m.postedBy == accountId && accountId in st.accounts
  {
    if accountId in st.accounts then ByAuthor(RetrieveAllMessages(st), accountId) else []
  }
}

=== FILE: model.dfy ===
/**
 * The two entities of the service, as the data-access layer hands them out,
 * and the rows of the two tables they are read from.
 */
module Model {

  /** A registered user identity with its server-assigned id. */
  datatype Account = Account(accountId: int, username: string, password: string)

  /** A short text post with its server-assigned id and its posting time (epoch seconds). */
  datatype Message = Message(messageId: int, postedBy: int, messageText: string, timePostedEpoch: int)

  /** A row of the account table; the table maps account_id to it. */
  datatype Credentials = Credentials(username: string, password: string)

  /** A row of the message table; the table maps message_id to it. */
  datatype Post = Post(postedBy: int, text: string, time: int)

  function AccountOf(id: int, c: Credentials): Account
  {
    Account(id, c.username, c.password)
  }

  function MessageOf(id: int, p: Post): Message
  {
    Message(id, p.postedBy, p.text, p.time)
  }
}

=== FILE: service.dfy ===
/**
 * The validation layer: each operation checks its business rules against
 * the current store and, when they hold, delegates to the data-access
 * layer; a rejection is `None` and leaves the store untouched.
 */
module Service {
  import opened Wrappers
  import opened Model
  import Dao

  const MinPasswordLength: int := 4
  const MaxMessageLength: int := 255

  /** Text a message may carry: not blank and not over 255 characters. */
  predicate ValidText(text: string)
  {
    0 < |text| <= MaxMessageLength
  }

  /** Credentials registration accepts (uniqueness aside). */
  predicate ValidCredentials(c: Credentials)
  {
    0 < |c.username| && MinPasswordLength <= |c.password|
  }

  /**
   * The data-model invariant the service keeps: ids come from the counters,
   * usernames are non-empty and unique, passwords have at least 4
   * characters, every message names an existing author and has valid text.
   */
  predicate WellFormed(st: Dao.Store)
  {
    && Dao.Valid(st)
    && (forall id :: id in st.accounts ==> ValidCredentials(st.accounts[id]))
    && (forall i, j :: (i in st.accounts && j in st.accounts
                        && st.accounts[i].username == st.accounts[j].username) ==> i == j)
    && (forall id :: id in st.messages ==> st.messages[id].postedBy in st.accounts)
    && (forall id :: id in st.messages ==> ValidText(st.messages[id].text))
  }

  lemma EmptyIsWellFormed()
    ensures WellFormed(Dao.Empty())
  {
  }

  /**
   * Registration: rejected when the password is shorter than 4, the
   * username is empty, or the username is already in use; otherwise the
   * account is inserted and returned with its generated id.
   */
  function AddAccount(st: Dao.Store, username: string, password: string): (r: Dao.Step<Option<Account>>)
    requires Dao.Valid(st)
    ensures r.out.None? <==> |password| < 4 || |username| == 0 || Dao.UsernameTaken(st, username)
    ensures r.out.None? ==> r.store == st
    ensures r.out.Some? ==> r.out.value == Account(st.nextAccountId, username, password)
                            && r.out.value.accountId !in st.accounts
                            && r.out.value.accountId >= 1
    ensures r.out.Some? ==> r.store.accounts == st.accounts[st.nextAccountId := Credentials(username, password)]
                            && r.store.messages == st.messages
    ensures r.out.Some? ==> r.store.nextAccountId == st.nextAccountId + 1
    ensures r.store.nextMessageId == st.nextMessageId
    ensures Dao.Valid(r.store)
    ensures WellFormed(st) ==> WellFormed(r.store)
  {
    var userNames := Dao.RetrieveAllUsernames(st);
    if |password| >= MinPasswordLength && |username| > 0 && username !in userNames then
      var r := Dao.AddAccount(st, username, password);
      assert !Dao.HasCredentials(st, Credentials(username, password));
      r
    else
      Dao.Step(st, None)
  }

  /**
   * Login: rejected without consulting the store when the username is
   * empty or the password is shorter than 4; otherwise an exact match on
   * both fields.
   */
  function UserLogin(st: Dao.Store, username: string, password: string): (r: Option<Account>)
    requires Dao.Valid(st)
    ensures |username| < 1 || |password| < 4 ==> r.None?
    ensures r.Some? <==> |username| >= 1 && |password| >= 4
                         && Dao.HasCredentials(st, Credentials(username, password))
    ensures r.Some? ==> r.value.accountId in st.accounts
                        && st.accounts[r.value.accountId] == Credentials(username, password)
                        && r.value == AccountOf(r.value.accountId, st.accounts[r.value.accountId])
  {
    if |username| < 1 || |password| < MinPasswordLength then None
    else Dao.UserLogin(st, username, password)
  }

  /**
   * Posting: rejected when posted_by is not an existing account or the
   * text is blank or over 255 characters; otherwise stored under a fresh id.
   */
  function PostMessage(st: Dao.Store, postedBy: int, text: string, time: int): (r: Dao.Step<Option<Message>>)
    requires Dao.Valid(st)
    ensures r.out.None? <==> postedBy !in st.accounts || |text| == 0 || |text| > 255
    ensures r.out.None? ==> r.store == st
    ensures r.out.Some? ==> r.out.value == Message(st.nextMessageId, postedBy, text, time)
                            && r.out.value.messageId !in st.messages
    ensures r.out.Some? ==> Dao.RetrieveMessageById(r.store, r.out.value.messageId) == r.out
    ensures r.out.Some? ==> forall id :: id in st.messages ==>
                              id in r.store.messages && r.store.messages[id] == st.messages[id]
    ensures r.out.Some? ==> && r.store.accounts == st.accounts
                            && r.store.messages == st.messages[st.nextMessageId := Post(postedBy, text, time)]
                            && r.store.nextMessageId == st.nextMessageId + 1
                            && r.store.nextAccountId == st.nextAccountId
    ensures Dao.Valid(r.store)
    ensures WellFormed(st) ==> WellFormed(r.store)
  {
    if Dao.RetrieveAccountById(st, postedBy).None? || |text| > MaxMessageLength || |text| == 0 then
      Dao.Step(st, None)
    else
      var r := Dao.PostMessage(st, postedBy, text, time);
      Dao.Step(r.store, Some(r.out))
  }

  function RetrieveAllMessages(st: Dao.Store): (r: seq<Message>)
    requires Dao.Valid(st)
    ensures |r| == |st.messages|
    ensures Dao.Ascending(r)
    ensures forall m :: m in r <==> Dao.Stored(st, m)
  {
    Dao.RetrieveAllMessages(st)
  }

  /** Whether an account exists is all the service itself asks of this lookup. */
  function RetrieveAccountById(st: Dao.Store, accountId: int): (r: Option<Account>)
    ensures r.Some? <==> accountId in st.accounts
    ensures r.Some? ==> r.value == AccountOf(accountId, st.accounts[accountId])
  {
    Dao.RetrieveAccountById(st, accountId)
  }

  function RetrieveAllUsernames(st: Dao.Store): (r: seq<string>)
    requires Dao.Valid(st)
    ensures |r| == |st.accounts|
    ensures forall u :: multiset(r)[u] == |Dao.AccountsNamed(st, u)|
    ensures forall u :: u in r <==> Dao.UsernameTaken(st, u)
  {
    Dao.RetrieveAllUsernames(st)
  }

  /** Deletion is unconditional: an absent id is a silent no-op. */
  function DeleteMessageById(st: Dao.Store, messageId: int): (r: Dao.Store)
    ensures Dao.RetrieveMessageById(r, messageId).None?
    ensures forall id :: id != messageId ==> Dao.RetrieveMessageById(r, id) == Dao.RetrieveMessageById(st, id)
    ensures r.accounts == st.accounts
    ensures r.nextAccountId == st.nextAccountId && r.nextMessageId == st.nextMessageId
    ensures messageId !in st.messages ==> r == st
    ensures Dao.Valid(st) ==> Dao.Valid(r)
    ensures WellFormed(st) ==> WellFormed(r)
  {
    Dao.DeleteMessageById(st, messageId)
  }

  function RetrieveMessageById(st: Dao.Store, messageId: int): (r: Option<Message>)
    requires Dao.Valid(st)
    ensures r.Some? <==> messageId in st.messages
    ensures r.Some? ==> r.value.messageId == messageId && r.value in RetrieveAllMessages(st)
  {
    Dao.RetrieveMessageById(st, messageId)
  }

  /**
   * Update: rejected when the message does not exist or the new text is
   * blank or over 255 characters; otherwise only the text of that one
   * message changes.
   */
  function UpdateMessageById(st: Dao.Store, newMessageText: string, messageId: int): (r: Dao.Step<Option<Message>>)
    ensures r.out.None? <==> messageId !in st.messages || |newMessageText| == 0 || |newMessageText| > 255
    ensures r.out.None? ==> r.store == st
    ensures r.out.Some? ==> var prior := st.messages[messageId];
                            r.out.value == Message(messageId, prior.postedBy, newMessageText, prior.time)
    ensures r.out.Some? ==> Dao.RetrieveMessageById(r.store, messageId) == r.out
    ensures forall id :: id != messageId ==> Dao.RetrieveMessageById(r.store, id) == Dao.RetrieveMessageById(st, id)
    ensures r.store.accounts == st.accounts
    ensures r.store.nextAccountId == st.nextAccountId && r.store.nextMessageId == st.nextMessageId
    ensures Dao.Valid(st) ==> Dao.Valid(r.store)
    ensures WellFormed(st) ==> WellFormed(r.store)
  {
    if Dao.RetrieveMessageById(st, messageId).None? || |newMessageText| == 0 || |newMessageText| > MaxMessageLength then
      Dao.Step(st, None)
    else
      Dao.UpdateMessageById(st, newMessageText, messageId)
  }

  /**
   * The messages of one account.  The data-access query joins against the
   * account table; in a well-formed store every author exists, so the
   * listing is exactly the stored messages with that posted_by.
   */
  function RetrieveMessagesByUser(st: Dao.Store, accountId: int): (r: seq<Message>)
    requires Dao.Valid(st)
    ensures Dao.Ascending(r)
    ensures WellFormed(st) ==> forall m :: m in r <==> m in RetrieveAllMessages(st) && m.postedBy == accountId
    ensures (forall id :: id in st.messages ==> st.messages[id].postedBy != accountId) ==> r == []
  {
    var r := Dao.RetrieveMessagesByUser(st, accountId);
    // A non-empty listing would have a first element, which names a message by this account.
    assert |r| > 0 ==> r[0] in r;
    r
  }

  /** Registering a username a second time is rejected. */
  lemma DuplicateRegistrationRejected(st: Dao.Store, username: string, password: string, password': string)
    requires Dao.Valid(st)
    requires MinPasswordLength <= |password| && 0 < |username| && !Dao.UsernameTaken(st, username)
    ensures AddAccount(AddAccount(st, username, password).store, username, password').out.None?
  {
    var st' := AddAccount(st, username, password).store;
    assert st'.accounts[st.nextAccountId].username == username;
  }

  /** In a well-formed store, logging in with a stored account's credentials returns that account. */
  lemma LoginFindsAccount(st: Dao.Store, id: int)
    requires WellFormed(st)
    requires id in st.accounts
    ensures UserLogin(st, st.accounts[id].username, st.accounts[id].password)
            == Some(AccountOf(id, st.accounts[id]))
  {
    var c := st.accounts[id];
    assert Dao.HasCredentials(st, c);
  }

  /** In a well-formed store, a registered username with any other password is refused. */
  lemma WrongPasswordRejected(st: Dao.Store, id: int, password: string)
    requires WellFormed(st)
    requires id in st.accounts
    requires password != st.accounts[id].password
    ensures UserLogin(st, st.accounts[id].username, password).None?
  {
  }

  /** A successful registration can immediately log in and gets back the same account. */
  lemma LoginAfterRegister(st: Dao.Store, username: string, password: string)
    requires Dao.Valid(st)
    requires MinPasswordLength <= |password| && 0 < |username| && !Dao.UsernameTaken(st, username)
    ensures UserLogin(AddAccount(st, username, password).store, username, password)
            == AddAccount(st, username, password).out
  {
    var r := AddAccount(st, username, password);
    var c := Credentials(username, password);
    assert r.store.accounts[st.nextAccountId] == c;
    assert Dao.HasCredentials(r.store, c);
  }

  /** Deleting twice is the same as deleting once. */
  lemma DeleteIdempotent(st: Dao.Store, messageId: int)
    ensures DeleteMessageById(DeleteMessageById(st, messageId), messageId) == DeleteMessageById(st, messageId)
  {
  }
}

=== FILE: session.dfy ===
/**
 * The service as a state machine: a sequence of requests applied one after
 * another to the store, each a single check-then-act step.  Properties
 * here span several requests: the data-model invariant is kept, generated
 * message ids are never issued twice (deletion does not free them), and a
 * registered account stays able to log in.
 */
module Session {
  import opened Wrappers
  import opened Model
  import Dao
  import Service

  datatype Request =
    | Register(username: string, password: string)
    | Login(username: string, password: string)
    | PostMessage(postedBy: int, text: string, time: int)
    | UpdateMessage(messageId: int, text: string)
    | DeleteMessage(messageId: int)
    | GetMessage(messageId: int)
    | ListMessages
    | ListMessagesByUser(accountId: int)

  datatype Response =
    | AccountReply(account: Option<Account>)
    | Posted(posted: Option<Message>)
    | MessageReply(message: Option<Message>)
    | MessagesReply(messages: seq<Message>)
    | Done

  /** One request; only a successful post moves the message counter. */
  function Apply(st: Dao.Store, req: Request): (r: Dao.Step<Response>)
    requires Service.WellFormed(st)
    ensures Service.WellFormed(r.store)
    ensures forall id :: id in st.accounts ==> id in r.store.accounts && r.store.accounts[id] == st.accounts[id]
    ensures r.out.Posted? && r.out.posted.Some?
            ==> r.out.posted.value.messageId == st.nextMessageId
                && r.store.nextMessageId == st.nextMessageId + 1
    ensures !(r.out.Posted? && r.out.posted.Some?) ==> r.store.nextMessageId == st.nextMessageId
  {
    match req
    case Register(u, p) =>
      var s := Service.AddAccount(st, u, p);
      Dao.Step(s.store, AccountReply(s.out))
    case Login(u, p) =>
      Dao.Step(st, AccountReply(Service.UserLogin(st, u, p)))
    case PostMessage(author, text, time) =>
      var s := Service.PostMessage(st, author, text, time);
      Dao.Step(s.store, Posted(s.out))
    case UpdateMessage(id, text) =>
      var s := Service.UpdateMessageById(st, text, id);
      Dao.Step(s.store, MessageReply(s.out))
    case DeleteMessage(id) =>
      Dao.Step(Service.DeleteMessageById(st, id), Done)
    case GetMessage(id) =>
      Dao.Step(st, MessageReply(Service.RetrieveMessageById(st, id)))
    case ListMessages =>
      Dao.Step(st, MessagesReply(Service.RetrieveAllMessages(st)))
    case ListMessagesByUser(a) =>
      Dao.Step(st, MessagesReply(Service.RetrieveMessagesByUser(st, a)))
  }

  /** Requests in order, with one response each. */
  function Run(st: Dao.Store, reqs: seq<Request>): (r: Dao.Step<seq<Response>>)
    requires Service.WellFormed(st)
    decreases |reqs|
    ensures Service.WellFormed(r.store)
    ensures |r.out| == |reqs|
    ensures st.nextMessageId <= r.store.nextMessageId
    ensures forall id :: id in st.accounts ==> id in r.store.accounts && r.store.accounts[id] == st.accounts[id]
  {
    if reqs == [] then Dao.Step(st, [])
    else
      var first := Apply(st, reqs[0]);
      var rest := Run(first.store, reqs[1..]);
      Dao.Step(rest.store, [first.out] + rest.out)
  }

  /** The ids of the messages successful posts replied with, in order. */
  function PostedIds(rs: seq<Response>): seq<int>
  {
    if rs == [] then []
    else if rs[0].Posted? && rs[0].posted.Some? then [rs[0].posted.value.messageId] + PostedIds(rs[1..])
    else PostedIds(rs[1..])
  }

  /** Strictly increasing ids, each in [lo, hi). */
  predicate IssuedBetween(ids: seq<int>, lo: int, hi: int)
  {
    && (forall i, j :: 0 <= i < j < |ids| ==> ids[i] < ids[j])
    && (forall i :: 0 <= i < |ids| ==> lo <= ids[i] < hi)
  }

  /**
   * Every message id handed out during a run is fresh: strictly increasing,
   * at least the counter the run started from and below the one it ends
   * with, so no id is reused even after its message was deleted.
   */
  lemma {:induction false} PostedIdsFresh(st: Dao.Store, reqs: seq<Request>)
    requires Service.WellFormed(st)
    decreases |reqs|
    ensures IssuedBetween(PostedIds(Run(st, reqs).out), st.nextMessageId, Run(st, reqs).store.nextMessageId)
  {
    if reqs != [] {
      var first := Apply(st, reqs[0]);
      var rest := Run(first.store, reqs[1..]);
      PostedIdsFresh(first.store, reqs[1..]);
      var tail := PostedIds(rest.out);
      var r := Run(st, reqs);
      assert r.out == [first.out] + rest.out && r.store == rest.store;
      assert r.out[1..] == rest.out;
      if first.out.Posted? && first.out.posted.Some? {
        assert PostedIds(r.out) == [st.nextMessageId] + tail;
      } else {
        assert PostedIds(r.out) == tail;
      }
    }
  }

  /** An account in the store can still log in with its credentials after any further requests. */
  lemma AccountKeepsLogin(st: Dao.Store, reqs: seq<Request>, id: int)
    requires Service.WellFormed(st)
    requires id in st.accounts
    ensures var c := st.accounts[id];
            Service.UserLogin(Run(st, reqs).store, c.username, c.password) == Some(AccountOf(id, c))
  {
    var end := Run(st, reqs).store;
    Service.LoginFindsAccount(end, id);
  }

  /**
   * A register/post/fetch/update/delete walk-through on empty tables, which
   * are well-formed, so the invariant holds at every step.
   */
  lemma EndToEnd(time: int)
    ensures Service.WellFormed(Dao.Empty())
    ensures var st0 := Dao.Empty();
            var r1 := Service.AddAccount(st0, "bob", "pass1");
            var r2 := Service.PostMessage(r1.store, 1, "hi", time);
            var r3 := Service.UpdateMessageById(r2.store, "hi there", 1);
            var st4 := Service.DeleteMessageById(r3.store, 1);
            && r1.out == Some(Account(1, "bob", "pass1"))
            && r2.out == Some(Message(1, 1, "hi", time))
            && Service.RetrieveMessageById(r2.store, 1) == r2.out
            && r3.out == Some(Message(1, 1, "hi there", time))
            && Service.RetrieveMessageById(st4, 1) == None
  {
    Service.EmptyIsWellFormed();
    var st0 := Dao.Empty();
    assert !Dao.UsernameTaken(st0, "bob");
    var r1 := Service.AddAccount(st0, "bob", "pass1");
    assert 1 in r1.store.accounts;
  }
}

=== FILE: wrappers.dfy ===
/** Optional values: the model's stand-in for a Java `null` result. */
module Wrappers {

  datatype Option<+T> = None | Some(value: T)
}
